=== FILE: README.md ===
# Upsortable in Dafny

Upsortable keeps `TreeSet`s and `ConcurrentSkipListSet`s sorted when a field
of one of their elements changes. The annotation processor
(`HandleUpsortable`) generates a setter for the fields of an `@Upsortable`
class that are not final, that lombok's filter keeps, that carry no
`@Setter` of their own and whose setter names are not taken. The setter
takes the object out of every sorted set registered under the field,
assigns the field, and puts the object back. The runtime
side (`UpsortableSets`) knows which sets those are. When a set is
constructed, `init` scans the disassembled bytecode of the comparator's
`compare` method for `getfield` instructions and registers the set in the
global map `GLOBAL_UPSORTABLE` under each `Class.field` it reads. Every set
draws a number from a shared `AtomicInteger`, and its `equals` and
`hashCode` use that number.

This project models that core and proves properties of it.

- `wrappers.dfy` (`Wrappers`): `Option` and `Result`, and the Java
  exceptions the model can raise.
- `int32.dfy` (`Int32`): Java `int` wrap-around.
- `text.dfy` (`Text`): the `String` operations the code relies on:
  - `indexOf` and `contains`;
  - `split(sep, 2)`;
  - `split("\\.")`, which keeps all pieces but drops trailing empty ones.
- `upsortable_sets.dfy` (`UpsortableSets`):
  - the registry, `init`'s scan, the counter, and constructing a set;
  - `add` and `remove`;
  - `equals` and `hashCode` of both set classes.
- `generated_setter.dfy` (`GeneratedSetter`): the setter protocol documented
  at the end of `HandleUpsortable`. It has three steps: remove, assign, and
  reinsert.
- `handle_upsortable.dfy` (`HandleUpsortable`):
  - `importToToken`;
  - which members of an annotated type get a setter, and under which name.

A sorted set is modelled by what its order depends on. Each set records
two collections of registry keys:

- `orderReads`: the fields its comparator's result depends on, directly or
  through the getters it calls;
- `registeredKeys`: the fields `init` found as `getfield` lines in
  `compare`'s own bytecode, under which the set is registered.

Each element is stored with a snapshot: the values of the `orderReads`
fields when the element was inserted, which is what fixed its position in
the tree. Every position is current (`Consistent`) when every snapshot
equals the element's current field values. A stale snapshot means the
element keeps the position its old values gave it. The set may then be
out of order, and a later `remove` may miss the element. A one-element set
is never out of order, so stale says less than misordered. The state is
`Covered` when every set's `orderReads` are among its `registeredKeys`.

The main theorem is `GeneratedSetter.Setter`. Starting from a state that
satisfies the registry invariant, the setter:

- assigns the field;
- reinserts the entity into exactly the registered sets that held it;
- keeps the registry invariant;
- keeps every position current when the state is covered;
- when the value changes, leaves a stale position in every set that holds
  the entity and orders by the field without being registered under it.

`UpsortableSets.DirectWriteBreaksOrder` shows that a plain field write
leaves a stale position. `UpsortableSets.GetterCallRegistersNothing`
shows that a comparator comparing through a getter is not covered. The
comment at `UpsortableSets.java:79-80` claims that getters are supported.

The setter's documented protocol and the code that builds it disagree: the
AST builder in `createSetter` (`HandleUpsortable.java:455-566`) is
unfinished.

- It calls `get` where the protocol calls `remove` (line 522).
- It increments `found` by `0` (line 530).
- It builds an array reference with no assignment (lines 533-538).
- It emits neither the field assignment nor the reinsertion loop (line 564).
- It catches only `NoSuchFieldException` (line 554).
- It builds the declaration of `participatingSets` (lines 458-479) but
  never adds it to the statements (line 564). The emitted loop would refer
  to an undeclared variable.
- It calls `UpsortableSets.getGlobalUpsortable()` (lines 429-441), as does
  the documented protocol (line 583). `UpsortableSets` declares no such
  method. It has only the public field `GLOBAL_UPSORTABLE`
  (`UpsortableSets.java:45`), and the generated setter would not compile.
  The model reads the registry directly.

The model follows the protocol documented in the comment at lines 576-607,
which is what the builder is evidently meant to emit.

## Model

| member | source | states |
|---|---|---|
| `Text.FirstIndexFrom` | src/core/lombok/UpsortableSets.java:82 | finds the first position where the pattern occurs, or none. No earlier position holds it. This is `indexOf` and `contains`. |
| `Text.SplitFirst` | src/core/lombok/UpsortableSets.java:83 | `split(sep, 2)` returns the whole string when `sep` does not occur. Otherwise it returns the text before and after the first occurrence, and the two reassemble the input. |
| `Text.StripTrailingEmpty` | src/core/lombok/eclipse/handlers/HandleUpsortable.java:211 | keeps a prefix that does not end in an empty piece. Every piece it drops is empty. |
| `Text.JoinSplitAll` | src/core/lombok/eclipse/handlers/HandleUpsortable.java:211 | joining the pieces of a split with the separator gives back the string. |
| `Text.SplitAllJoin` | src/core/lombok/eclipse/handlers/HandleUpsortable.java:211 | splitting the join of separator-free pieces gives back the pieces. |
| `UpsortableSets.KeyOfLine` | src/core/lombok/UpsortableSets.java:83 | the key of a field-reading line is the text right after the first `" Field "`. It runs up to the first `(`, or to the end of the line. |
| `UpsortableSets.KeysOfIff` | src/core/lombok/UpsortableSets.java:81-83 | a key is extracted from a listing iff some line containing `getfield` names it. |
| `UpsortableSets.RegisterLine` | src/core/lombok/UpsortableSets.java:82-98 | a line without `getfield` leaves the registry alone. Otherwise a new key gets a singleton set, an existing key's set gains the new set, and every other key keeps its entry. |
| `UpsortableSets.Register` | src/core/lombok/UpsortableSets.java:81-100 | after the scan, every extracted key holds its previous sets plus the new one. No other key changes and no other key appears. |
| `UpsortableSets.RegisterIdempotent` | src/core/lombok/UpsortableSets.java:84-98 | registering the same set with the same listing twice is the same as once. |
| `UpsortableSets.RegisterDependsOnKeysOnly` | src/core/lombok/UpsortableSets.java:81-98 | two listings that read the same fields register a set identically, whatever the order or repetition of their lines. |
| `UpsortableSets.NextNumber` | src/core/lombok/UpsortableSets.java:115 | `incrementAndGet` yields the next `int`. It wraps from the largest `int` to the smallest. |
| `UpsortableSets.NewSet` | src/core/lombok/UpsortableSets.java:119-124 | constructing a set gives it a fresh reference and the next number (the wrapped value at the largest `int` is stated by `NewSetNumber`). It starts empty. It is registered under every field read by a `getfield` line of its comparator, and the registry entries of the other fields are unchanged. |
| `UpsortableSets.InitialValid` | src/core/lombok/UpsortableSets.java:38-45 | the initial state (counter 0, empty registry) satisfies the registry invariant. Every position is current and the state is covered. |
| `UpsortableSets.NewSetPreservesCovered` | src/core/lombok/UpsortableSets.java:79-99 | a new set keeps the state covered iff every field its order depends on is read by a `getfield` line of `compare`. |
| `UpsortableSets.NoFieldReadWithoutF` | src/core/lombok/UpsortableSets.java:82 | a line without the letter `f` never counts as a field read. |
| `UpsortableSets.GetterCallRegistersNothing` | src/core/lombok/UpsortableSets.java:79-83 | the printed getter call `invokevirtual #23 = Method Person.getAge(()I)` is parsable and registers no key, so a comparator that reads `age` only through `getAge` is not registered under `Person.age`. |
| `UpsortableSets.KeysOfAppend` | src/core/lombok/UpsortableSets.java:81-83 | the keys of two listings scanned together are the union of their keys. |
| `UpsortableSets.NewSetFollowingGetters` | src/core/lombok/UpsortableSets.java:79-99 | construction that also scans the listings of the getters the comparator calls registers the new set under every field those getters read, as well as under the comparator's own reads. |
| `UpsortableSets.FollowingGettersKeepsCovered` | src/core/lombok/UpsortableSets.java:79-99 | when the order depends only on fields read by the comparator or by its getters, following the getters keeps the state covered. |
| `UpsortableSets.NewSetPreservesValid` | src/core/lombok/UpsortableSets.java:56-104 | construction keeps the invariant: a set is registered under a key exactly when a `getfield` line of its `compare` names that field. Numbers stay strictly increasing, and the new number exceeds every earlier one. |
| `UpsortableSets.NewSetPreservesRegistry` | src/core/lombok/UpsortableSets.java:81-99 | construction keeps the registry invariant for any counter value. The invariant is about references; it matches the source's `HashSet`s only while set numbers do not repeat (see `UpsortableSets.NewSet` under "Left out"). |
| `UpsortableSets.NewSetNumber` | src/core/lombok/UpsortableSets.java:115-119 | the new set's number is the counter's `incrementAndGet`, including the wrap from the largest `int` to the smallest. |
| `UpsortableSets.NewSetPreservesConsistent` | src/core/lombok/UpsortableSets.java:170-175 | constructing a set keeps every position current. |
| `UpsortableSets.Add` | src/core/lombok/eclipse/handlers/HandleUpsortable.java:600 | `add` reports true iff the element was absent. A new element is placed by its current field values; existing elements and other sets are untouched. |
| `UpsortableSets.Remove` | src/core/lombok/eclipse/handlers/HandleUpsortable.java:589 | `remove` reports true iff the element was present. It takes only that element out of only that set. |
| `UpsortableSets.AddPreservesConsistent` | src/core/lombok/eclipse/handlers/HandleUpsortable.java:600 | adding an element keeps every position current: the new element is placed by its current values. |
| `UpsortableSets.RemovePreservesConsistent` | src/core/lombok/eclipse/handlers/HandleUpsortable.java:589 | removing an element keeps every remaining position current. |
| `UpsortableSets.DirectWriteBreaksOrder` | src/core/lombok/eclipse/handlers/HandleUpsortable.java:596 | assigning a field that a set's order depends on, without removing and reinserting the element, leaves the element's position in that set stale. |
| `UpsortableSets.EqualsAsWritten` | src/core/lombok/UpsortableSets.java:134-146 | `equals` as written: identity is true, and null or a non-set is false. It throws exactly when a skip-list set is compared with a distinct skip-list set of equal contents, and the exception is the failed cast. |
| `UpsortableSets.SkipListEqualsThrows` | src/core/lombok/UpsortableSets.java:140-142 | two distinct skip-list sets with the same contents make `equals` throw `ClassCastException`. |
| `UpsortableSets.TwoFreshSkipListSetsThrow` | src/core/lombok/UpsortableSets.java:119-146 | two skip-list sets built one after another already trigger the failing cast. |
| `UpsortableSets.Equals` | src/core/lombok/UpsortableSets.java:185-197 | `equals` with the cast corrected. It is true for identity and false for non-sets and for different numbers. When true for two distinct sets, they have equal contents and the same class. |
| `UpsortableSets.EqualsAgreesWhenNoThrow` | src/core/lombok/UpsortableSets.java:134-146 | whenever the written `equals` returns, it returns what the corrected one does. |
| `UpsortableSets.EqualsReflexive` | src/core/lombok/UpsortableSets.java:136-137 | the written `equals` returns true for the set itself without reaching the cast, whatever its class; so does the corrected one. |
| `UpsortableSets.EqualsSymmetric` | src/core/lombok/UpsortableSets.java:185-197 | the corrected `equals` is symmetric. |
| `UpsortableSets.EqualsIsIdentity` | src/core/lombok/UpsortableSets.java:163-166 | in a valid state, numbers are distinct, so two sets are equal iff they are the same object. The registry's hash sets therefore never merge two sets. |
| `UpsortableSets.HashCode` | src/core/lombok/UpsortableSets.java:177-183 | the hash is an `int` congruent to 31 times the contents' hash plus the number. |
| `UpsortableSets.EqualsImpliesSameHash` | src/core/lombok/UpsortableSets.java:177-197 | equal sets have equal hash codes. |
| `GeneratedSetter.PrintedGetfieldKey` | src/core/lombok/eclipse/handlers/HandleUpsortable.java:583 | the key `init` extracts from the printed read of `C.f` is the key `C + "." + f` that the setter of `f` looks up. |
| `GeneratedSetter.PreMutate` | src/core/lombok/eclipse/handlers/HandleUpsortable.java:583-593 | the removal loop records each registered set that held the entity exactly once, and no others. It records no more than the number of registered sets. The entity leaves every registered set, and nothing else changes. |
| `GeneratedSetter.PostMutate` | src/core/lombok/eclipse/handlers/HandleUpsortable.java:598-602 | the reinsertion loop adds the entity to every recorded set, positioned by the current fields, and touches no other set or element. |
| `GeneratedSetter.Setter` | src/core/lombok/eclipse/handlers/HandleUpsortable.java:576-607 | if the value is unchanged, nothing happens. Otherwise only that field is assigned. The entity is back in exactly the registered sets that held it, placed by its new value. No set gains or loses members. The registry invariant, validity and coverage are kept. In a covered state every position stays current. When the value changes, a set that holds the entity and orders by the field without being registered under it keeps a stale position for it. |
| `GeneratedSetter.UnregisteredReadGoesStale` | src/core/lombok/eclipse/handlers/HandleUpsortable.java:583-602 | a set that is not registered under the field is not touched by the setter. If its order depends on the field and it holds the entity, a changed value leaves the entity's position stale. |
| `GeneratedSetter.ReinsertKeepsOrder` | src/core/lombok/eclipse/handlers/HandleUpsortable.java:594-602 | in a covered state, reinsertion keeps every position current. A set holding the entity but not registered under the key does not order by that field. |
| `GeneratedSetter.SetterAsDocumented` | src/core/lombok/eclipse/handlers/HandleUpsortable.java:583-606 | as written, a field no set is registered under makes the lookup null. `set.size()` throws `NullPointerException`, the field keeps its old value, and the state is unchanged. A registered key is assigned normally. |
| `HandleUpsortable.ImportToToken` | src/core/lombok/eclipse/handlers/HandleUpsortable.java:210-221 | the tokens contain no dot, and a dot-free name is a single token. |
| `HandleUpsortable.ImportToTokenJoin` | src/core/lombok/eclipse/handlers/HandleUpsortable.java:210-221 | joining the tokens with dots gives back the name iff the name does not end with a dot. |
| `HandleUpsortable.ImportToTokenOfJoin` | src/core/lombok/eclipse/handlers/HandleUpsortable.java:196-211 | a dotted name built from non-empty, dot-free segments tokenises back to those segments in order. |
| `HandleUpsortable.FirstExisting` | src/core/lombok/eclipse/handlers/HandleUpsortable.java:250-265 | finds the first alternative name that already exists, and every name before it is free. When it finds none, all names are free. |
| `HandleUpsortable.CreateSetterForField` | src/core/lombok/eclipse/handlers/HandleUpsortable.java:229-269 | a setter is generated iff the node is a field, it has a setter name, and none of its alternative names exists. A non-field and a missing name are reported. The reported name is the first alternative that exists, and a warning is given iff asked to complain and that method was written by the user. |
| `HandleUpsortable.ProcessMembers` | src/core/lombok/eclipse/handlers/HandleUpsortable.java:112-123 | a member reaches `createSetterForField` iff it is a non-final field that the filter keeps and that has no `@Setter`. It gets a setter iff none of its alternative names exists, neither in the type nor among setters generated earlier in the loop. |
| `HandleUpsortable.GenerateSetterForType` | src/core/lombok/eclipse/handlers/HandleUpsortable.java:94-125 | defers to a type-level `@Setter` when asked to check for it. Reports an error iff the node is not a class. Otherwise, a member gets a setter only if it is selected and none of its alternative names existed. |
| `HandleUpsortable.NoSetterGeneratedTwice` | src/core/lombok/eclipse/handlers/HandleUpsortable.java:250-268 | when each setter name is among its own alternative names, no name is generated twice for one type. |

## Left out

- The bytecode listing is an input sequence of lines. Javassist's
  `ClassPool`, `getDeclaredMethod` and `InstructionPrinter` are not
  modelled, and neither is the split on `\r?\n`.
- A line with `getfield` but no `" Field "` is excluded by a precondition
  (`ParsableLine`). The source would throw `ArrayIndexOutOfBoundsException`
  inside `init`, where nothing catches it.
- Reflection is not modelled:
  - `getGenericInterfaces` and `setEntryType` (lines 60-64);
  - `this.getClass().getDeclaredField(name).getName()` in the setter
    (`HandleUpsortable.java:581`). For an instance of the declaring class it
    returns the field name, which is what the model uses. For an instance
    of a subclass, `getDeclaredField` throws `NoSuchFieldException`. The
    `catch` at lines 604-605 swallows it, and the field is never assigned.
    The model has no subclasses.
- `synchronized`, `Collections.synchronizedSet` and thread interleavings
  are not modelled. Every operation is atomic.
- The trees themselves are not modelled. Only the order they depend on is
  (snapshots), together with set membership. `TreeSet.remove` locates
  elements through the comparator, so with a stale position it can miss an
  element. The model removes by identity. This is the situation that
  `DirectWriteBreaksOrder` and `UnregisteredReadGoesStale` describe.
- UpsortableSets.Add: `TreeSet` and `ConcurrentSkipListSet` decide
  membership by the comparator, so `add` of an entity that compares equal
  to a distinct member returns false and stores nothing. The model decides
  by identity, so its membership results hold only for sets in which no
  two entities compare equal.
- UpsortableSets.Remove: `remove` takes out a member that compares equal
  to the argument, which may be a different entity. The model removes by
  identity and holds only when no two entities in a set compare equal.
- GeneratedSetter.PreMutate: when another member compares equal to the
  entity, the removal loop may take that member out instead and record
  the set. The model's removal is by identity, valid only when no two
  entities in a set compare equal.
- GeneratedSetter.PostMutate: reinserting the entity fails when a member
  already compares equal to its new value, so the entity drops out of that
  set. The model always reinserts, which holds only when no two entities
  in a set compare equal.
- GeneratedSetter.Setter: its membership results ("back in exactly the
  registered sets that held it", "no set gains or loses members") inherit
  the assumption of `PreMutate` and `PostMutate`: no two entities in a set
  compare equal, before or after the assignment.
- GeneratedSetter.PreMutate: a registered set holding the entity at a
  stale position may answer `remove(this)` (line 589) with false. This
  happens when an earlier setter of a field the set orders by, but is not
  registered under, went stale. The source then does not record the set,
  and the entity stays at its old position. The model removes by identity
  and records the set. Its results hold only when every registered set
  that holds the entity has a current position for it.
- GeneratedSetter.Setter: its membership results and the fresh placement
  in the registered sets hold only when every registered set that holds
  the entity has a current position for it, as for `PreMutate`. A covered
  state that was current before the call satisfies this.
- GeneratedSetter.Setter: `float` and `double` fields are not modelled.
  The early return `this.$field == $field` (line 577, built at lines
  315-331) uses Java's `==`, which is not value equality for them. Setting
  `0.0` to `-0.0` returns early and keeps `0.0`, and `NaN` set to `NaN`
  does not return early. `Value` is an integer, for which `==` is
  equality.
- GeneratedSetter.Setter: the comparator cannot throw in the model. In
  the source, an exception thrown by the comparator inside `remove` (line
  589) or `add` (line 600) is swallowed by the same `catch` (lines
  604-605). The entity then stays out of the sets not yet reached.
- GeneratedSetter.Setter: it needs only the registry invariant, not the
  counter bound of `Valid`. Construction keeps that invariant for any
  counter value (`NewSetPreservesRegistry`). The setter's results match
  the source while no set number repeats (fewer than 2^32 constructions),
  as the next line explains.
- UpsortableSets.NewSet: registration is by reference. The values of
  `GLOBAL_UPSORTABLE` are `HashSet`s (`UpsortableSets.java:93-95`), which
  compare with `hashCode` and `equals`. An empty set's hash is its number
  (lines 177-183). Once the counter has gone all the way round (2^32
  constructions) a number repeats. A new tree set registered under a key
  that already holds an empty tree set with the same number is then
  silently not added. For two skip-list sets, `HashSet.add` reaches the
  cast at line 142 and the constructor throws. The model registers the new
  set in both cases, so it agrees with the source only while numbers are
  distinct.
- UpsortableSets.Equals: the content comparison is `AbstractSet.equals`
  for the tree set (a size check, then `containsAll`) and
  `ConcurrentSkipListSet.equals` for the skip-list set (`containsAll` in
  both directions). Both use the comparator. The model compares the sets of
  element identities.
- UpsortableSets.HashCode: `AbstractSet.hashCode` (the sum of element
  hashes) is a parameter, `contentHash`. The sets' hash codes change while
  they sit in the registry's hash sets, which the model does not follow.
- UpsortableSets.NewSetPreservesValid requires the counter below the
  largest `int`. After 2^31-1 constructions `number` wraps (stated by
  `NextNumber`), numbers stop being increasing, and `EqualsIsIdentity` no
  longer holds.
- The setter looks up `this.getClass().getName()`, the runtime class.
  `init` registers the class named in the `getfield` field reference, which
  is the compile-time type of the receiver: `o1.age` with `o1` a `Person`
  prints `Person.age` even when `age` is declared in a superclass. For a
  subclass instance these keys would differ, but the setter never reaches
  the lookup for one: `getDeclaredField` has already thrown (see above).
  The model takes the class name as a parameter and does not model
  inheritance.
- The AST construction in `createSetter` is not modelled:
  - the statement objects and positions;
  - `copyAnnotations`, `shouldReturnThis` and deprecation;
  - the defects listed above.
- `handle`, `addImports`, `addInterface` and `createSetterForFields` are
  not modelled. They are plumbing around the modelled decisions. The
  four import names that `addImports` passes are dot-separated segments,
  which `ImportToTokenOfJoin` covers.
- The lombok helpers are inputs of `Member`:
  - `filterField`, `toSetterName`, `toAllSetterNames` and `hasAnnotation`;
  - `methodExists`, which compares names case-insensitively and counts
    parameters; the model compares names exactly.
- Error and warning messages are reduced to outcome constructors
  (`NotAClass`, `NoSetterName`, `AlreadyExists(..., warned)`), and
  `System.out.println` is left out.
- `Upsortable.java`, `UpsortableSet.java` and `UpsortableValue` are
  declarations without behaviour and are not part of this model.

## Findings

| source | as written | input that shows it | evidently intended | confidence | as-written member | corrected member |
|---|---|---|---|---|---|---|
| src/core/lombok/UpsortableSets.java:142 | `UpsortableConcurrentSkipListSet.equals` casts its argument to `UpsortableTreeSet` | two fresh, empty `UpsortableConcurrentSkipListSet`s compared with `equals`: contents and class match, then the cast throws `ClassCastException` | cast to `UpsortableConcurrentSkipListSet` and compare numbers, returning false | not executed | `UpsortableSets.EqualsAsWritten` (`SkipListEqualsThrows`, `TwoFreshSkipListSetsThrow`) | `UpsortableSets.Equals` (`EqualsIsIdentity`, `EqualsImpliesSameHash`) |
| src/core/lombok/UpsortableSets.java:79-83 | the comment says that getters are supported, but `init` scans only the `getfield` lines of `compare`'s own bytecode | a comparator that compares `o1.getAge()` with `o2.getAge()`: its listing shows `invokevirtual #23 = Method Person.getAge(()I)` and no `getfield`, so the set is never registered under `Person.age`. A `setAge` then leaves the entity at its old position in that set | also scan the bytecode of the getters the comparator calls | not executed | `UpsortableSets.GetterCallRegistersNothing`, `GeneratedSetter.UnregisteredReadGoesStale` (`GeneratedSetter.Setter`) | `UpsortableSets.NewSetFollowingGetters` (`FollowingGettersKeepsCovered`, with the order clause of `GeneratedSetter.Setter`) |
| src/core/lombok/eclipse/handlers/HandleUpsortable.java:583-606 | the setter calls `set.size()` on the result of `registry.get(key)` | setting a field that no set is registered under to a new value: `get` returns null, `size()` throws, the `catch` swallows it, and the field is never assigned | treat a missing key as no participating sets and assign the field | not executed | `GeneratedSetter.SetterAsDocumented` | `GeneratedSetter.Setter` |

=== FILE: generated_setter.dfy ===
/** The setter that `@Upsortable` generates for a field, following the
    protocol documented on `HandleUpsortable`: return early when the value
    does not change; otherwise look up the sets registered under
    `<runtime class name>.<field name>`, take the entity out of each set that
    holds it while remembering those sets, assign the field, and put the
    entity back into exactly the remembered sets.

    The protocol has three steps: `PreMutate` (the removal loop), the
    assignment, and `PostMutate` (the reinsertion loop). */
module GeneratedSetter {
  import opened Wrappers
  import opened Text
  import opened UpsortableSets

  /** The registry key the setter looks up:
      `this.getClass().getName() + "." + fname`. */
  function SetterKey(className: string, fieldName: string): Key {
    className + "." + fieldName
  }

  /** The first `" Field "` of a line whose text before the marker holds no
      capital F is that marker. */
  lemma MarkerAfterPrefix(prefix: string, rest: string)
    requires 'F' !in prefix
    ensures IndexOf(prefix + FieldMarker + rest, FieldMarker) == Some(|prefix|)
  {
    var line := prefix + FieldMarker + rest;
    var p := |prefix|;
    assert line[p..p + |FieldMarker|] == FieldMarker;
    assert OccursAt(line, FieldMarker, p);
    ContainsIff(line, FieldMarker);
    forall j | 0 <= j < p
      ensures !OccursAt(line, FieldMarker, j)
    {
      if j + 1 < p {
        assert line[j + 1] == prefix[j + 1];
      } else {
        assert line[j + 1] == FieldMarker[0];
      }
      assert line[j + 1] != FieldMarker[1];
      if j + |FieldMarker| <= |line| {
        assert line[j..j + |FieldMarker|][1] == line[j + 1];
      }
    }
  }

  /** The key runs from the marker to the first parenthesis. */
  lemma KeyUpToParen(prefix: string, key: string, rest: string)
    requires 'F' !in prefix && '(' !in key
    requires |rest| == 0 || rest[0] == '('
    ensures Contains(prefix + FieldMarker + key + rest, FieldMarker)
    ensures KeyOfLine(prefix + FieldMarker + key + rest) == key
  {
    var line := prefix + FieldMarker + key + rest;
    assert line == prefix + FieldMarker + (key + rest);
    MarkerAfterPrefix(prefix, key + rest);
    var start := |prefix| + |FieldMarker|;
    var k := KeyOfLine(line);
    assert line[start..] == key + rest;
    assert k == line[start..start + |key|] == key;
  }

  /** The key `init` extracts from the line that prints a read of
      `className.fieldName` is the key the setter of that field looks up.
      The printed line is the instruction text before the marker (which
      never contains a capital F), the marker, the qualified field name, and
      the field's type descriptor in parentheses. */
  lemma PrintedGetfieldKey(prefix: string, className: string, fieldName: string, descriptor: string)
    requires Contains(prefix, GetfieldOpcode) && 'F' !in prefix
    requires '(' !in className && '(' !in fieldName
    ensures var line := prefix + FieldMarker + SetterKey(className, fieldName) + "(" + descriptor;
      && ReadsField(line)
      && Contains(line, FieldMarker)
      && KeyOfLine(line) == SetterKey(className, fieldName)
  {
    var key := SetterKey(className, fieldName);
    var line := prefix + FieldMarker + key + "(" + descriptor;
    assert line == prefix + (FieldMarker + key + "(" + descriptor);
    ContainsAppend(prefix, FieldMarker + key + "(" + descriptor, GetfieldOpcode);
    assert line == prefix + FieldMarker + key + ("(" + descriptor);
    KeyUpToParen(prefix, key, "(" + descriptor);
  }

  /** No element repeats. */
  predicate Distinct<T(==)>(s: seq<T>) {
    forall i, j :: 0 <= i < j < |s| ==> s[i] != s[j]
  }

  /** The removal loop: `participatingSets` is an array of `set.size()`
      slots; each registered set whose `remove(this)` answers true is stored
      at `found`, which then advances. Returns the state with the entity
      taken out and the recorded sets. */
  method PreMutate(w: World, e: EntityId, key: Key) returns (w': World, participating: seq<Ref>)
    requires RegistryMatchesReads(w)
    ensures w' == w.(sets := w'.sets) && |w'.sets| == |w.sets|
    ensures |participating| <= |Members(w.registry, key)|
    ensures Distinct(participating)
    ensures forall r :: r in participating <==> r in Members(w.registry, key) && r < |w.sets| && e in w.sets[r].elems
    ensures forall r :: 0 <= r < |w.sets| ==>
      w'.sets[r] == if r in Members(w.registry, key) then w.sets[r].(elems := w.sets[r].elems - {e}) else w.sets[r]
  {
    var registered := Members(w.registry, key);
    var participatingSets := new Ref[|registered|];
    var found := 0;
    var todo := registered;
    RegisteredSetsExist(w, key);
    w' := w;
    while todo != {}
      invariant todo <= registered
      invariant forall r :: r in registered ==> r < |w.sets|
      invariant found <= |registered| - |todo|
      invariant w' == w.(sets := w'.sets) && |w'.sets| == |w.sets|
      invariant forall r :: 0 <= r < |w.sets| ==>
        w'.sets[r] == if r in registered && r !in todo then w.sets[r].(elems := w.sets[r].elems - {e}) else w.sets[r]
      invariant Distinct(participatingSets[..found])
      invariant forall r :: r in participatingSets[..found] <==> r in registered && r !in todo && r < |w.sets| && e in w.sets[r].elems
      decreases todo
    {
      var s :| s in todo;
      var removed: bool;
      var res := Remove(w', s, e);
      w', removed := res.0, res.1;
      if removed {
        participatingSets[found] := s;
        assert participatingSets[..found + 1] == participatingSets[..found] + [s];
        found := found + 1;
      }
      todo := todo - {s};
    }
    participating := participatingSets[..found];
  }

  /** The reinsertion loop: `participatingSets[i].add(this)` for every
      recorded set, in order. */
  method PostMutate(w: World, e: EntityId, participating: seq<Ref>) returns (w': World)
    requires forall i :: 0 <= i < |participating| ==> participating[i] < |w.sets|
    ensures w' == w.(sets := w'.sets) && |w'.sets| == |w.sets|
    ensures forall r :: 0 <= r < |w.sets| && r !in participating ==> w'.sets[r] == w.sets[r]
    ensures forall r :: 0 <= r < |w.sets| && r in participating ==>
      && w'.sets[r] == w.sets[r].(elems := w'.sets[r].elems)
      && w'.sets[r].elems.Keys == w.sets[r].elems.Keys + {e}
      && w'.sets[r].elems[e] == (if e in w.sets[r].elems then w.sets[r].elems[e] else Snapshot(w.fields, e, w.sets[r].orderReads))
      && forall x :: x in w.sets[r].elems ==> w'.sets[r].elems[x] == w.sets[r].elems[x]
  {
    w' := w;
    var i := 0;
    while i < |participating|
      invariant i <= |participating|
      invariant w' == w.(sets := w'.sets) && |w'.sets| == |w.sets|
      invariant forall r :: 0 <= r < |w.sets| && r !in participating[..i] ==> w'.sets[r] == w.sets[r]
      invariant forall r :: 0 <= r < |w.sets| && r in participating[..i] ==>
        && w'.sets[r] == w.sets[r].(elems := w'.sets[r].elems)
        && w'.sets[r].elems.Keys == w.sets[r].elems.Keys + {e}
        && w'.sets[r].elems[e] == (if e in w.sets[r].elems then w.sets[r].elems[e] else Snapshot(w.fields, e, w.sets[r].orderReads))
        && forall x :: x in w.sets[r].elems ==> w'.sets[r].elems[x] == w.sets[r].elems[x]
    {
      var r := participating[i];
      w' := Add(w', r, e).0;
      assert participating[..i + 1] == participating[..i] + [r];
      i := i + 1;
    }
    assert participating[..i] == participating;
  }

  /** The setter with the documented protocol, treating a key nobody
      registered as an empty collection of sets. Besides the membership
      facts it keeps every position current when every set is registered
      under all the fields its order depends on: the entity is re-added at
      the position its new value gives it. A set whose order depends on the
      field but that is not registered under it keeps the entity at its old
      position, which is then stale. */
  method Setter(w: World, e: EntityId, className: string, fieldName: string, newValue: Value)
    returns (w': World, participating: seq<Ref>)
    requires RegistryMatchesReads(w)
    ensures var key := SetterKey(className, fieldName);
      FieldValue(w.fields, e, key) == newValue ==> w' == w && participating == []
    ensures FieldValue(w'.fields, e, SetterKey(className, fieldName)) == newValue
    ensures forall x: EntityId, k: Key :: (x, k) != (e, SetterKey(className, fieldName)) ==>
      FieldValue(w'.fields, x, k) == FieldValue(w.fields, x, k)
    ensures w'.counter == w.counter && w'.registry == w.registry && |w'.sets| == |w.sets|
    ensures Distinct(participating)
    ensures forall r :: r in participating <==>
      && FieldValue(w.fields, e, SetterKey(className, fieldName)) != newValue
      && r in Members(w.registry, SetterKey(className, fieldName))
      && r < |w.sets|
      && e in w.sets[r].elems
    ensures forall r :: 0 <= r < |w.sets| && r !in participating ==> w'.sets[r] == w.sets[r]
    ensures forall r :: 0 <= r < |w.sets| && r in participating ==>
      w'.sets[r] == w.sets[r].(elems := w.sets[r].elems[e := Snapshot(w'.fields, e, w.sets[r].orderReads)])
    ensures forall r :: 0 <= r < |w.sets| ==> w'.sets[r].elems.Keys == w.sets[r].elems.Keys
    ensures RegistryMatchesReads(w')
    ensures Valid(w) ==> Valid(w')
    ensures Covered(w) ==> Covered(w')
    ensures Consistent(w) && Covered(w) ==> Consistent(w')
    ensures Consistent(w) && FieldValue(w.fields, e, SetterKey(className, fieldName)) != newValue ==>
      forall r :: (0 <= r < |w.sets| && e in w.sets[r].elems
                   && SetterKey(className, fieldName) in w.sets[r].orderReads
                   && SetterKey(className, fieldName) !in w.sets[r].registeredKeys) ==> !Consistent(w')
  {
    var key := SetterKey(className, fieldName);
    if FieldValue(w.fields, e, key) == newValue {
      return w, [];
    }
    var removed: World;
    removed, participating := PreMutate(w, e, key);
    var written := removed.(fields := removed.fields[(e, key) := newValue]);
    assert forall i :: 0 <= i < |participating| ==> participating[i] in participating;
    w' := PostMutate(written, e, participating);

    forall r | 0 <= r < |w.sets| && r in participating
      ensures w'.sets[r] == w.sets[r].(elems := w.sets[r].elems[e := Snapshot(w'.fields, e, w.sets[r].orderReads)])
    {
      assert w'.sets[r].elems == w.sets[r].elems[e := Snapshot(w'.fields, e, w.sets[r].orderReads)];
    }
    assert forall r :: 0 <= r < |w.sets| ==> w'.sets[r].elems.Keys == w.sets[r].elems.Keys;
    ElementChangesPreserveValid(w, w');
    if Consistent(w) && Covered(w) {
      ReinsertKeepsOrder(w, w', e, key, newValue, participating);
    }
    if Consistent(w) {
      forall r | 0 <= r < |w.sets| && e in w.sets[r].elems && key in w.sets[r].orderReads && key !in w.sets[r].registeredKeys
        ensures !Consistent(w')
      {
        UnregisteredReadGoesStale(w, w', e, key, newValue, r);
      }
    }
  }

  /** A set holding the entity whose order depends on the changed field but
      that is not registered under it is not touched by the setter, so the
      entity keeps the position its old value gave it. */
  lemma UnregisteredReadGoesStale(w: World, w': World, e: EntityId, key: Key, newValue: Value, r: Ref)
    requires RegistryMatchesReads(w) && Consistent(w)
    requires r < |w.sets| && e in w.sets[r].elems
    requires key in w.sets[r].orderReads && key !in w.sets[r].registeredKeys
    requires |w'.sets| == |w.sets| && FieldValue(w'.fields, e, key) == newValue != FieldValue(w.fields, e, key)
    requires forall r' :: 0 <= r' < |w.sets| && r' !in Members(w.registry, key) ==> w'.sets[r'] == w.sets[r']
    ensures !Consistent(w')
  {
    RegisteredSetsExist(w, key);
    assert r !in Members(w.registry, key);
    assert w'.sets[r] == w.sets[r];
    assert w.sets[r].elems[e][key] == FieldValue(w.fields, e, key);
    assert Snapshot(w'.fields, e, w'.sets[r].orderReads)[key] == newValue;
  }

  /** Reindexing keeps every position current. Sets holding the entity under the
      changed key got it back positioned by the new value; any other set
      holding it does not read the changed field, which is where the
      registry's agreement with the comparators is needed. */
  lemma ReinsertKeepsOrder(w: World, w': World, e: EntityId, key: Key, newValue: Value, participating: seq<Ref>)
    requires RegistryMatchesReads(w) && Consistent(w) && Covered(w)
    requires w'.registry == w.registry && |w'.sets| == |w.sets|
    requires w'.fields == w.fields[(e, key) := newValue]
    requires forall r :: r in participating <==> r in Members(w.registry, key) && r < |w.sets| && e in w.sets[r].elems
    requires forall r :: 0 <= r < |w.sets| && r !in participating ==> w'.sets[r] == w.sets[r]
    requires forall r :: 0 <= r < |w.sets| && r in participating ==>
      w'.sets[r] == w.sets[r].(elems := w.sets[r].elems[e := Snapshot(w'.fields, e, w.sets[r].orderReads)])
    ensures Consistent(w')
  {
    forall r, x | 0 <= r < |w'.sets| && x in w'.sets[r].elems
      ensures w'.sets[r].elems[x] == Snapshot(w'.fields, x, w'.sets[r].orderReads)
    {
      var keys := w.sets[r].orderReads;
      if x != e || r !in participating {
        assert x in w.sets[r].elems;
        if x == e {
          assert r !in Members(w.registry, key);
          assert ReadSets(w.sets)[r] == w.sets[r].registeredKeys;
          assert key !in w.sets[r].registeredKeys;
          assert key !in keys;
        }
        SnapshotAgrees(w.fields, w'.fields, x, keys);
      }
    }
  }

  /** The documented protocol exactly as written: `registry.get(key)` is
      null for a field no set is registered under, `set.size()` then throws a
      `NullPointerException`, the surrounding `catch` prints it, and the
      method ends before the assignment. */
  method SetterAsDocumented(w: World, e: EntityId, className: string, fieldName: string, newValue: Value)
    returns (w': World, participating: seq<Ref>, thrown: Option<JavaException>)
    requires RegistryMatchesReads(w)
    ensures var key := SetterKey(className, fieldName);
      key !in w.registry && FieldValue(w.fields, e, key) != newValue ==>
        && thrown == Some(NullPointerException)
        && w' == w
        && FieldValue(w'.fields, e, key) != newValue
    ensures var key := SetterKey(className, fieldName);
      key in w.registry ==> thrown == None && FieldValue(w'.fields, e, key) == newValue
  {
    var key := SetterKey(className, fieldName);
    if FieldValue(w.fields, e, key) == newValue {
      return w, [], None;
    }
    if key !in w.registry {
      return w, [], Some(NullPointerException);
    }
    w', participating := Setter(w, e, className, fieldName, newValue);
    thrown := None;
  }
}

=== FILE: handle_upsortable.dfy ===
/** The compile-time side of `@Upsortable` (`HandleUpsortable`): splitting
    an import name into tokens, and deciding for which members of an
    annotated type a setter is generated and under which name. The AST
    construction itself is not modelled; what the generated setter does is
    the `GeneratedSetter` module. */
module HandleUpsortable {
  import opened Wrappers
  import opened Text

  // ---------------------------------------------------------------------
  // importToToken
  // ---------------------------------------------------------------------

  /** `importToToken`: the segments of a dotted name, as
      `importName.split("\\.")` returns them, each turned into characters. */
  function ImportToToken(importName: string): (tokens: seq<string>)
    ensures forall i :: 0 <= i < |tokens| ==> '.' !in tokens[i]
    ensures '.' !in importName ==> tokens == [importName]
  {
    JavaSplit(importName, '.')
  }

  /** Joining the tokens with dots gives back the name exactly when the name
      does not end with a dot (the split drops trailing empty segments). */
  lemma ImportToTokenJoin(name: string)
    ensures Join(ImportToToken(name), '.') == name <==> |name| == 0 || name[|name| - 1] != '.'
  {
    if '.' in name {
      var parts := SplitAll(name, '.');
      JoinSplitAll(name, '.');
      LastPieceEmpty(name, '.');
      var tokens := StripTrailingEmpty(parts);
      assert |parts| >= 2;
      if name[|name| - 1] != '.' {
        assert tokens == parts;
      } else {
        JoinPrefixShorter(parts, |tokens|, '.');
        assert |Join(tokens, '.')| < |name|;
      }
    }
  }

  /** Tokenising a name built from non-empty, dot-free segments gives back
      those segments in order. */
  lemma ImportToTokenOfJoin(segments: seq<string>)
    requires |segments| >= 1
    requires forall i :: 0 <= i < |segments| ==> segments[i] != "" && '.' !in segments[i]
    ensures ImportToToken(Join(segments, '.')) == segments
  {
    var name := Join(segments, '.');
    if |segments| == 1 {
      assert name == segments[0];
    } else {
      assert name[|segments[0]|] == '.';
      SplitAllJoin(segments, '.');
      var tokens := StripTrailingEmpty(segments);
      assert |tokens| == |segments|;
    }
  }

  // ---------------------------------------------------------------------
  // Which members get a setter
  // ---------------------------------------------------------------------

  /** The kinds of node found among a type's children. */
  datatype Kind = Field | Method | Initializer | Type | Annotation

  /** What `methodExists` reports for a name. */
  datatype Existence = NotExists | ExistsByUser | ExistsByLombok

  /** A child node of the annotated type, with what the lombok helpers
      report about it: whether `filterField` keeps it, whether it is final,
      whether it carries `@Setter`, the name `toSetterName` gives (`None` for
      null) and the names `toAllSetterNames` lists. */
  datatype Member = Member(
    kind: Kind,
    passesFilter: bool,
    isFinal: bool,
    hasSetterAnnotation: bool,
    setterName: Option<string>,
    altNames: seq<string>)

  /** The one-argument methods of the type, by name. */
  type Methods = map<string, Existence>

  function Lookup(methods: Methods, name: string): Existence {
    if name in methods then methods[name] else NotExists
  }

  /** The decision of `createSetterForField`. */
  datatype SetterOutcome =
    | Generated(name: string)
    | NotAField
    | NoSetterName
    | AlreadyExists(altName: string, existence: Existence, warned: bool)

  /** The first name, at or after `from`, that already exists as a method. */
  function FirstExisting(names: seq<string>, methods: Methods, from: nat): (r: Option<nat>)
    requires from <= |names|
    ensures r.Some? ==> from <= r.value < |names| && Lookup(methods, names[r.value]) != NotExists
    ensures r.Some? ==> forall j :: from <= j < r.value ==> Lookup(methods, names[j]) == NotExists
    ensures r.None? ==> forall j :: from <= j < |names| ==> Lookup(methods, names[j]) == NotExists
    decreases |names| - from
  {
    if from == |names| then None
    else if Lookup(methods, names[from]) != NotExists then Some(from)
    else FirstExisting(names, methods, from + 1)
  }

  /** `createSetterForField`: only fields get setters, a field without a
      setter name is skipped, and the first alternative name that already
      exists stops generation, with a warning only when asked to complain
      and only about a method the user wrote. */
  function CreateSetterForField(m: Member, methods: Methods, whineIfExists: bool): (o: SetterOutcome)
    ensures o.NotAField? <==> m.kind != Field
    ensures o.NoSetterName? <==> m.kind == Field && m.setterName.None?
    ensures o.Generated? <==>
      && m.kind == Field
      && m.setterName.Some?
      && forall i :: 0 <= i < |m.altNames| ==> Lookup(methods, m.altNames[i]) == NotExists
    ensures o.Generated? ==> o.name == m.setterName.value
    ensures o.AlreadyExists? ==>
      var f := FirstExisting(m.altNames, methods, 0);
      f.Some? && o.altName == m.altNames[f.value]
    ensures o.AlreadyExists? ==>
      && o.altName in m.altNames
      && o.existence == Lookup(methods, o.altName) != NotExists
      && (o.warned <==> whineIfExists && o.existence == ExistsByUser)
  {
    if m.kind != Field then NotAField
    else if m.setterName.None? then NoSetterName
    else match FirstExisting(m.altNames, methods, 0)
      case Some(i) =>
        var existence := Lookup(methods, m.altNames[i]);
        AlreadyExists(m.altNames[i], existence, whineIfExists && existence == ExistsByUser)
      case None => Generated(m.setterName.value)
  }

  /** What happened to one child of the type in `generateSetterForType`. */
  datatype MemberOutcome =
    | SkippedNotField
    | SkippedByFilter
    | SkippedFinal
    | SkippedSetterAnnotated
    | Created(outcome: SetterOutcome)

  /** A member the loop hands to `createSetterForField`: a field that the
      filter keeps, that is not final and that has no `@Setter` of its own. */
  predicate Selected(m: Member) {
    m.kind == Field && m.passesFilter && !m.isFinal && !m.hasSetterAnnotation
  }

  predicate IsGenerated(o: MemberOutcome) {
    o.Created? && o.outcome.Generated?
  }

  /** The setter names generated by a run of outcomes. */
  function GeneratedNames(outcomes: seq<MemberOutcome>): set<string> {
    set i | 0 <= i < |outcomes| && IsGenerated(outcomes[i]) :: outcomes[i].outcome.name
  }

  /** One iteration of the loop over the type's children. A generated
      setter is injected into the type, so later members see its name. */
  function ProcessMember(m: Member, methods: Methods): (MemberOutcome, Methods) {
    if m.kind != Field then (SkippedNotField, methods)
    else if !m.passesFilter then (SkippedByFilter, methods)
    else if m.isFinal then (SkippedFinal, methods)
    else if m.hasSetterAnnotation then (SkippedSetterAnnotated, methods)
    else
      var o := CreateSetterForField(m, methods, false);
      (Created(o), if o.Generated? then methods[o.name := ExistsByLombok] else methods)
  }

  /** The loop over the type's children, in order. A member reaches
      `createSetterForField` exactly when it is selected, and it gets a
      setter exactly when none of its alternative names exists, either in
      the type as written or among the setters generated before it. */
  function ProcessMembers(members: seq<Member>, methods: Methods): (res: (seq<MemberOutcome>, Methods))
    ensures |res.0| == |members|
    ensures forall i :: 0 <= i < |members| ==> (res.0[i].Created? <==> Selected(members[i]))
    ensures forall i :: 0 <= i < |members| && IsGenerated(res.0[i]) ==>
      members[i].setterName == Some(res.0[i].outcome.name)
    ensures forall i :: 0 <= i < |members| ==>
      (IsGenerated(res.0[i]) <==>
        && Selected(members[i])
        && members[i].setterName.Some?
        && forall j :: 0 <= j < |members[i].altNames| ==>
             Lookup(methods, members[i].altNames[j]) == NotExists
             && members[i].altNames[j] !in GeneratedNames(res.0[..i]))
    decreases |members|
  {
    if |members| == 0 then ([], methods)
    else
      var (o, methods') := ProcessMember(members[0], methods);
      var rest := ProcessMembers(members[1..], methods');
      var outcomes := [o] + rest.0;
      assert forall i :: 0 < i <= |members| ==>
        GeneratedNames(outcomes[..i]) == GeneratedNames([o]) + GeneratedNames(rest.0[..i - 1]) by {
        forall i | 0 < i <= |members|
          ensures GeneratedNames(outcomes[..i]) == GeneratedNames([o]) + GeneratedNames(rest.0[..i - 1])
        {
          GeneratedNamesCons(o, rest.0[..i - 1]);
          assert outcomes[..i] == [o] + rest.0[..i - 1];
        }
      }
      assert outcomes[..0] == [];
      forall i, j | 0 < i < |members| && 0 <= j < |members[i].altNames|
        ensures var n := members[i].altNames[j];
          (Lookup(methods', n) == NotExists && n !in GeneratedNames(rest.0[..i - 1]))
          <==> (Lookup(methods, n) == NotExists && n !in GeneratedNames(outcomes[..i]))
      {
        ProcessMemberLookup(members[0], methods, members[i].altNames[j]);
      }
      (outcomes, rest.1)
  }

  /** After one member, a name is free exactly when it was free before and
      the member did not generate it. */
  lemma ProcessMemberLookup(m: Member, methods: Methods, n: string)
    ensures var (o, methods') := ProcessMember(m, methods);
      Lookup(methods', n) == NotExists <==> Lookup(methods, n) == NotExists && n !in GeneratedNames([o])
  {
    var (o, methods') := ProcessMember(m, methods);
    assert [o][0] == o;
    if IsGenerated(o) {
      assert GeneratedNames([o]) == {o.outcome.name};
    } else {
      assert GeneratedNames([o]) == {};
    }
  }

  lemma GeneratedNamesCons(o: MemberOutcome, rest: seq<MemberOutcome>)
    ensures GeneratedNames([o] + rest) == GeneratedNames([o]) + GeneratedNames(rest)
  {
    var all := [o] + rest;
    forall n | n in GeneratedNames(all)
      ensures n in GeneratedNames([o]) + GeneratedNames(rest)
    {
      var i :| 0 <= i < |all| && IsGenerated(all[i]) && all[i].outcome.name == n;
      if i > 0 {
        assert all[i] == rest[i - 1];
      } else {
        assert [o][0] == all[0];
      }
    }
    forall n | n in GeneratedNames(rest)
      ensures n in GeneratedNames(all)
    {
      var i :| 0 <= i < |rest| && IsGenerated(rest[i]) && rest[i].outcome.name == n;
      assert all[i + 1] == rest[i];
    }
    forall n | n in GeneratedNames([o])
      ensures n in GeneratedNames(all)
    {
      assert all[0] == o;
    }
  }

  /** The annotated type as `generateSetterForType` sees it. */
  datatype TypeKind = NotATypeDeclaration | ClassDecl | InterfaceDecl | AnnotationDecl | EnumDecl

  datatype TypeNode = TypeNode(kind: TypeKind, hasSetterAnnotation: bool, members: seq<Member>)

  /** What `generateSetterForType` did. It returns false only for
      `NotAClass`, after reporting an error. */
  datatype TypeOutcome =
    | DeferredToSetter
    | NotAClass
    | Processed(outcomes: seq<MemberOutcome>, methods: Methods)

  function GenerateSetterForType(t: TypeNode, checkForTypeLevelSetter: bool, methods: Methods): (r: TypeOutcome)
    ensures r.DeferredToSetter? <==> checkForTypeLevelSetter && t.hasSetterAnnotation
    ensures r.NotAClass? <==> !(checkForTypeLevelSetter && t.hasSetterAnnotation) && t.kind != ClassDecl
    ensures r.Processed? ==> |r.outcomes| == |t.members|
    ensures r.Processed? ==> forall i :: 0 <= i < |t.members| && IsGenerated(r.outcomes[i]) ==>
      && Selected(t.members[i])
      && t.members[i].setterName == Some(r.outcomes[i].outcome.name)
      && forall j :: 0 <= j < |t.members[i].altNames| ==> Lookup(methods, t.members[i].altNames[j]) == NotExists
  {
    if checkForTypeLevelSetter && t.hasSetterAnnotation then DeferredToSetter
    else if t.kind != ClassDecl then NotAClass
    else
      var (outcomes, methods') := ProcessMembers(t.members, methods);
      Processed(outcomes, methods')
  }

  /** When every member's alternative names include its own setter name (as
      lombok lists them), no setter name is generated twice for one type. */
  lemma {:induction false} NoSetterGeneratedTwice(members: seq<Member>, methods: Methods)
    requires forall i :: 0 <= i < |members| && members[i].setterName.Some? ==>
      members[i].setterName.value in members[i].altNames
    ensures var outcomes := ProcessMembers(members, methods).0;
      forall i, j :: 0 <= i < j < |outcomes| && IsGenerated(outcomes[i]) && IsGenerated(outcomes[j]) ==>
        outcomes[i].outcome.name != outcomes[j].outcome.name
  {
    var outcomes := ProcessMembers(members, methods).0;
    forall i, j | 0 <= i < j < |outcomes| && IsGenerated(outcomes[i]) && IsGenerated(outcomes[j])
      ensures outcomes[i].outcome.name != outcomes[j].outcome.name
    {
      var n := outcomes[i].outcome.name;
      assert n in GeneratedNames(outcomes[..j]) by {
        assert outcomes[..j][i] == outcomes[i];
      }
      var alts := members[j].altNames;
      var m := outcomes[j].outcome.name;
      var k :| 0 <= k < |alts| && alts[k] == m;
      assert m !in GeneratedNames(outcomes[..j]);
    }
  }
}

=== FILE: int32.dfy ===
/** Java `int` arithmetic: 32-bit two's complement with silent wrap-around. */
module Int32 {

  const MIN: int := -0x8000_0000
  const MAX: int := 0x7fff_ffff
  const MODULUS: int := 0x1_0000_0000

  predicate InRange(x: int) {
    MIN <= x <= MAX
  }

  /** The Java `int` that a mathematically exact result `x` wraps to. */
  function Wrap(x: int): (r: int)
    ensures InRange(r)
    ensures (r - x) % MODULUS == 0
    ensures InRange(x) ==> r == x
  {
    var m := (x - MIN) % MODULUS;
    assert x - MIN == (x - MIN) / MODULUS * MODULUS + m;
    m + MIN
  }
}

=== FILE: text.dfy ===
/** The `java.lang.String` operations the modelled code relies on:
    `indexOf`, `contains`, `split` with a limit of 2 on a literal
    separator, and `split` with the default limit on a single character. */
module Text {
  import opened Wrappers

  /** `pat` occurs in `s` starting at index `i`. */
  predicate OccursAt(s: string, pat: string, i: int) {
    0 <= i && i + |pat| <= |s| && s[i..i + |pat|] == pat
  }

  /** A one-character pattern occurs exactly where that character stands. */
  lemma OccursAtChar(s: string, c: char, i: int)
    ensures OccursAt(s, [c], i) <==> 0 <= i < |s| && s[i] == c
  {
    if 0 <= i < |s| {
      assert s[i..i + 1] == [s[i]];
    }
  }

  /** Position of the first occurrence of `pat` in `s` at or after `from`. */
  function FirstIndexFrom(s: string, pat: string, from: nat): (r: Option<nat>)
    requires from <= |s|
    ensures r.Some? ==> from <= r.value && OccursAt(s, pat, r.value)
    ensures r.Some? ==> forall j :: from <= j < r.value ==> !OccursAt(s, pat, j)
    ensures r.None? ==> forall j :: from <= j ==> !OccursAt(s, pat, j)
    decreases |s| - from
  {
    if OccursAt(s, pat, from) then Some(from)
    else if from == |s| then None
    else FirstIndexFrom(s, pat, from + 1)
  }

  /** Java's `s.indexOf(pat)`, with `None` for -1. */
  function IndexOf(s: string, pat: string): Option<nat> {
    FirstIndexFrom(s, pat, 0)
  }

  /** Java's `s.contains(pat)`. */
  predicate Contains(s: string, pat: string) {
    IndexOf(s, pat).Some?
  }

  /** `Contains` holds exactly when the pattern occurs somewhere. */
  lemma ContainsIff(s: string, pat: string)
    ensures Contains(s, pat) <==> exists i :: OccursAt(s, pat, i)
  {
    if exists i :: OccursAt(s, pat, i) {
      var i :| OccursAt(s, pat, i);
      assert 0 <= i;
    }
  }

  /** For a one-character pattern, `IndexOf` finds the first position
      holding that character. */
  lemma FirstCharIndex(s: string, c: char)
    ensures IndexOf(s, [c]).None? ==> c !in s
    ensures IndexOf(s, [c]).Some? ==>
      var i := IndexOf(s, [c]).value;
      i < |s| && s[i] == c && c !in s[..i]
  {
    forall j | 0 <= j < |s| {
      OccursAtChar(s, c, j);
    }
    match IndexOf(s, [c])
    case None =>
    case Some(i) =>
      OccursAtChar(s, c, i);
  }

  /** A pattern found in a string is still found after text is appended. */
  lemma ContainsAppend(a: string, b: string, pat: string)
    requires Contains(a, pat)
    ensures Contains(a + b, pat)
  {
    var i := IndexOf(a, pat).value;
    assert (a + b)[i..i + |pat|] == a[i..i + |pat|];
    assert OccursAt(a + b, pat, i);
    ContainsIff(a + b, pat);
  }

  /** Java's `s.split(sep, 2)` for a separator without regex metacharacters:
      the text before the first occurrence of `sep` and the text after it,
      or `[s]` alone when `sep` does not occur. */
  function SplitFirst(s: string, sep: string): (parts: seq<string>)
    requires |sep| > 0
    ensures !Contains(s, sep) ==> parts == [s]
    ensures Contains(s, sep) ==>
      && |parts| == 2
      && s == parts[0] + sep + parts[1]
      && IndexOf(s, sep) == Some(|parts[0]|)
  {
    match IndexOf(s, sep)
    case None => [s]
    case Some(i) =>
      assert s == s[..i] + sep + s[i + |sep|..];
      [s[..i], s[i + |sep|..]]
  }

  /** The pieces of `s` between occurrences of `sep`, keeping every empty
      piece (a Java split with a negative limit). */
  function SplitAll(s: string, sep: char): (parts: seq<string>)
    ensures |parts| >= 1
    ensures forall i :: 0 <= i < |parts| ==> sep !in parts[i]
    decreases |s|
  {
    if |s| == 0 then [""]
    else
      var rest := SplitAll(s[1..], sep);
      if s[0] == sep then [""] + rest
      else [[s[0]] + rest[0]] + rest[1..]
  }

  /** `parts` joined with `sep` between neighbours. */
  function Join(parts: seq<string>, sep: char): string
  {
    if |parts| == 0 then ""
    else if |parts| == 1 then parts[0]
    else parts[0] + [sep] + Join(parts[1..], sep)
  }

  /** The list with its trailing empty strings removed, as Java's `split`
      does when no limit is given. */
  function StripTrailingEmpty(parts: seq<string>): (r: seq<string>)
    ensures |r| <= |parts| && r == parts[..|r|]
    ensures |r| == 0 || r[|r| - 1] != ""
    ensures forall i :: |r| <= i < |parts| ==> parts[i] == ""
  {
    if |parts| > 0 && parts[|parts| - 1] == "" then StripTrailingEmpty(parts[..|parts| - 1])
    else parts
  }

  /** Java's `s.split(regex)` where the regex matches exactly the character
      `sep`: the whole string when `sep` does not occur, otherwise the pieces
      between occurrences with trailing empty pieces dropped. */
  function JavaSplit(s: string, sep: char): (parts: seq<string>)
    ensures forall i :: 0 <= i < |parts| ==> sep !in parts[i]
  {
    if sep !in s then [s] else StripTrailingEmpty(SplitAll(s, sep))
  }

  /** Splitting then joining gives back the string. */
  lemma {:induction false} JoinSplitAll(s: string, sep: char)
    ensures Join(SplitAll(s, sep), sep) == s
    decreases |s|
  {
    if |s| > 0 {
      var rest := SplitAll(s[1..], sep);
      JoinSplitAll(s[1..], sep);
      if s[0] == sep {
        assert ([""] + rest)[1..] == rest;
      } else if |rest| > 1 {
        var parts := [[s[0]] + rest[0]] + rest[1..];
        assert parts[1..] == rest[1..];
        assert Join(rest, sep) == rest[0] + [sep] + Join(rest[1..], sep);
      }
    }
  }

  /** Splitting a string that starts with a separator-free prefix puts that
      prefix in front of the first piece. */
  lemma {:induction false} SplitAllPrefix(a: string, t: string, sep: char)
    requires sep !in a
    ensures SplitAll(a + t, sep) == [a + SplitAll(t, sep)[0]] + SplitAll(t, sep)[1..]
    decreases |a|
  {
    if |a| > 0 {
      assert (a + t)[1..] == a[1..] + t;
      SplitAllPrefix(a[1..], t, sep);
      assert [a[0]] + (a[1..] + SplitAll(t, sep)[0]) == a + SplitAll(t, sep)[0];
    } else {
      var parts := SplitAll(t, sep);
      assert a + t == t && a + parts[0] == parts[0];
      assert parts == [parts[0]] + parts[1..];
    }
  }

  /** Joining separator-free pieces then splitting gives back the pieces. */
  lemma {:induction false} SplitAllJoin(parts: seq<string>, sep: char)
    requires |parts| >= 1
    requires forall i :: 0 <= i < |parts| ==> sep !in parts[i]
    ensures SplitAll(Join(parts, sep), sep) == parts
    decreases |parts|
  {
    if |parts| == 1 {
      SplitAllPrefix(parts[0], "", sep);
      assert parts[0] + "" == parts[0];
    } else {
      var tail := Join(parts[1..], sep);
      SplitAllJoin(parts[1..], sep);
      assert Join(parts, sep) == parts[0] + ([sep] + tail);
      SplitAllPrefix(parts[0], [sep] + tail, sep);
      assert ([sep] + tail)[1..] == tail;
      assert SplitAll([sep] + tail, sep) == [""] + parts[1..];
      assert parts[0] + "" == parts[0];
      assert parts == [parts[0]] + parts[1..];
    }
  }

  /** The last piece of a split is empty exactly when the string is empty or
      ends with the separator. */
  lemma {:induction false} LastPieceEmpty(s: string, sep: char)
    ensures var parts := SplitAll(s, sep);
      parts[|parts| - 1] == "" <==> |s| == 0 || s[|s| - 1] == sep
    decreases |s|
  {
    if |s| > 1 {
      LastPieceEmpty(s[1..], sep);
      assert s[1..][|s| - 2] == s[|s| - 1];
    } else if |s| == 1 {
      assert SplitAll(s[1..], sep) == [""];
    }
  }

  /** Adding pieces at the end makes the joined string longer. */
  lemma {:induction false} JoinPrefixShorter(parts: seq<string>, m: nat, sep: char)
    requires |parts| >= 2 && m < |parts|
    ensures |Join(parts[..m], sep)| < |Join(parts, sep)|
    decreases |parts|
  {
    if m == 0 {
      assert parts[..0] == [];
    } else if |parts| == 2 {
      assert parts[..1] == [parts[0]];
    } else {
      JoinPrefixShorter(parts[1..], m - 1, sep);
      assert parts[1..][..m - 1] == parts[..m][1..];
      if m >= 2 {
        assert |Join(parts[..m], sep)| == |parts[0]| + 1 + |Join(parts[..m][1..], sep)|;
      } else {
        assert parts[..m] == [parts[0]];
      }
    }
  }
}

=== FILE: upsortable_sets.dfy ===
/** The set side of Upsortable (`lombok.UpsortableSets`): the global
    registry from fields to the sorted sets registered under them, the
    counter that numbers every set, `init`'s scan of a comparator's bytecode
    listing, and the identity (`equals` / `hashCode`) of the two set classes.

    A sorted set is modelled by what its ordering depends on. Its comparator
    is represented by the fields its result depends on (`orderReads`), and
    each element is stored with the values of those fields at the moment it
    was inserted: the position a `TreeSet` or `ConcurrentSkipListSet` gave
    it. Every position is current when every stored snapshot still matches
    the element's current field values (`Consistent`). A stale snapshot
    means the element keeps the position its old values gave it, so the
    set may be out of order and a later `remove` may miss the element.
    Separately, each set records the keys `init` registered it under
    (`registeredKeys`); the setter can only keep every position current
    when those cover `orderReads` (`Covered`). */
module UpsortableSets {
  import opened Wrappers
  import opened Text
  import Int32

  /** A registry key: a class name, a dot and a field name. */
  type Key = string

  /** A reference to a set object; set objects live at consecutive addresses. */
  type Ref = nat

  /** The identity of an entity (an instance of an annotated class). */
  type EntityId = nat

  /** A field value: an integral or boolean value or an object reference,
      for which Java's `==` is equality of values. `float` and `double`
      fields, where `==` is not (`0.0 == -0.0`, `NaN != NaN`), are not
      modelled. 0 also stands for the default value of a field (0, false or
      null). */
  type Value = int

  /** The field values of all entities, by entity and field key. */
  type Fields = map<(EntityId, Key), Value>

  function FieldValue(fields: Fields, e: EntityId, k: Key): Value {
    if (e, k) in fields then fields[(e, k)] else 0
  }

  /** The values of the fields in `keys` that entity `e` holds now. */
  function Snapshot(fields: Fields, e: EntityId, keys: set<Key>): map<Key, Value> {
    map k | k in keys :: FieldValue(fields, e, k)
  }

  /** Two field maps that agree on the fields in `keys` give the
      same snapshot. */
  lemma SnapshotAgrees(f1: Fields, f2: Fields, e: EntityId, keys: set<Key>)
    requires forall k :: k in keys ==> FieldValue(f1, e, k) == FieldValue(f2, e, k)
    ensures Snapshot(f1, e, keys) == Snapshot(f2, e, keys)
  {
  }

  /** The two `UpsortableSet` classes. */
  datatype Variant = TreeSet | ConcurrentSkipListSet

  /** An `UpsortableSet` object: its class, its `number`, the keys `init`
      registered it under, the fields its comparator's result depends on,
      and its elements with the values of those fields each was positioned
      by. */
  datatype SetObj = SetObj(
    variant: Variant,
    number: int,
    registeredKeys: set<Key>,
    orderReads: set<Key>,
    elems: map<EntityId, map<Key, Value>>)

  /** `GLOBAL_UPSORTABLE`: registry key to the sets registered under it. */
  type Registry = map<Key, set<Ref>>

  /** The process state: the shared counter, the registry, every set object
      by reference, and the entities' fields. */
  datatype World = World(counter: int, registry: Registry, sets: seq<SetObj>, fields: Fields)

  /** The state at class-load time: `new AtomicInteger()` holds 0 and the
      registry is an empty `HashMap`. */
  const Initial: World := World(0, map[], [], map[])

  /** The sets registered under `k`; none when the key is absent. */
  function Members(reg: Registry, k: Key): set<Ref> {
    if k in reg then reg[k] else {}
  }

  // ---------------------------------------------------------------------
  // init: scanning the printed `compare` method
  // ---------------------------------------------------------------------

  const GetfieldOpcode: string := "getfield"
  const FieldMarker: string := " Field "

  /** A listing line that reads a field. */
  predicate ReadsField(line: string) {
    Contains(line, GetfieldOpcode)
  }

  /** A line `init` can parse: a field read names its field after the
      `" Field "` marker (the source throws otherwise). */
  predicate ParsableLine(line: string) {
    ReadsField(line) ==> Contains(line, FieldMarker)
  }

  predicate WellFormedListing(lines: seq<string>) {
    forall i :: 0 <= i < |lines| ==> ParsableLine(lines[i])
  }

  /** The registry key a field-reading line names: the text after the first
      `" Field "` up to, not including, the next `(` (or to the end of the
      line when there is none). */
  function KeyOfLine(line: string): (k: Key)
    requires Contains(line, FieldMarker)
    ensures var start := IndexOf(line, FieldMarker).value + |FieldMarker|;
      && start + |k| <= |line|
      && line[start..start + |k|] == k
      && '(' !in k
      && (start + |k| == |line| || line[start + |k|] == '(')
  {
    var rest := SplitFirst(line, FieldMarker)[1];
    KeyInRest(line, rest);
    BeforeParen(rest);
    SplitFirst(rest, "(")[0]
  }

  /** The text before the first `(` is a `(`-free prefix, followed by `(`
      or the end. */
  lemma BeforeParen(rest: string)
    ensures var k := SplitFirst(rest, "(")[0];
      && |k| <= |rest| && rest[..|k|] == k && '(' !in k
      && (|k| == |rest| || rest[|k|] == '(')
  {
    FirstCharIndex(rest, '(');
  }

  /** What follows the first marker is the tail of the line after it. */
  lemma KeyInRest(line: string, rest: string)
    requires Contains(line, FieldMarker) && rest == SplitFirst(line, FieldMarker)[1]
    ensures rest == line[IndexOf(line, FieldMarker).value + |FieldMarker|..]
  {
    var halves := SplitFirst(line, FieldMarker);
    assert line[|halves[0]| + |FieldMarker|..] == rest;
  }

  /** The keys one line contributes. */
  function LineKeys(line: string): set<Key>
    requires ParsableLine(line)
  {
    if ReadsField(line) then {KeyOfLine(line)} else {}
  }

  /** The keys of every field-reading line of the listing: the fields a
      `getfield` line of `compare` names. */
  function KeysOf(lines: seq<string>): set<Key>
    requires WellFormedListing(lines)
    decreases |lines|
  {
    if |lines| == 0 then {} else LineKeys(lines[0]) + KeysOf(lines[1..])
  }

  /** A key is extracted exactly when some field-reading line names it. */
  lemma {:induction false} KeysOfIff(lines: seq<string>, k: Key)
    requires WellFormedListing(lines)
    ensures k in KeysOf(lines) <==>
      exists i :: 0 <= i < |lines| && ReadsField(lines[i]) && KeyOfLine(lines[i]) == k
    decreases |lines|
  {
    if |lines| > 0 {
      KeysOfIff(lines[1..], k);
      if exists i :: 0 <= i < |lines| && ReadsField(lines[i]) && KeyOfLine(lines[i]) == k {
        var i :| 0 <= i < |lines| && ReadsField(lines[i]) && KeyOfLine(lines[i]) == k;
        if i > 0 {
          assert lines[1..][i - 1] == lines[i];
        }
      }
      if k in KeysOf(lines[1..]) {
        var i :| 0 <= i < |lines[1..]| && ReadsField(lines[1..][i]) && KeyOfLine(lines[1..][i]) == k;
        assert lines[i + 1] == lines[1..][i];
      }
    }
  }

  /** One iteration of `init`'s loop: a field-reading line adds the set
      under its key, creating the entry when the key is new. */
  function RegisterLine(reg: Registry, s: Ref, line: string): (r: Registry)
    requires ParsableLine(line)
    ensures !ReadsField(line) ==> r == reg
    ensures ReadsField(line) ==>
      var k := KeyOfLine(line);
      && r.Keys == reg.Keys + {k}
      && (k !in reg ==> r[k] == {s})
      && (k in reg ==> r[k] == reg[k] + {s})
      && forall k' :: k' in reg && k' != k ==> r[k'] == reg[k']
  {
    if !ReadsField(line) then reg
    else
      var k := KeyOfLine(line);
      if k in reg then reg[k := reg[k] + {s}]
      else reg[k := {s}]
  }

  /** `init`'s loop over the whole listing. Every extracted key ends up
      holding its previous sets plus the new one; every other key keeps its
      entry. */
  function Register(reg: Registry, s: Ref, lines: seq<string>): (r: Registry)
    requires WellFormedListing(lines)
    ensures r.Keys == reg.Keys + KeysOf(lines)
    ensures forall k :: k in KeysOf(lines) ==> r[k] == Members(reg, k) + {s}
    ensures forall k :: k in reg && k !in KeysOf(lines) ==> r[k] == reg[k]
    decreases |lines|
  {
    if |lines| == 0 then reg
    else
      assert WellFormedListing(lines[1..]) by {
        forall i | 0 <= i < |lines[1..]| ensures ParsableLine(lines[1..][i]) {
          assert lines[1..][i] == lines[i + 1];
        }
      }
      Register(RegisterLine(reg, s, lines[0]), s, lines[1..])
  }

  /** Registering is idempotent: scanning the same listing for the same set
      again changes nothing. */
  lemma RegisterIdempotent(reg: Registry, s: Ref, lines: seq<string>)
    requires WellFormedListing(lines)
    ensures Register(Register(reg, s, lines), s, lines) == Register(reg, s, lines)
  {
    var once := Register(reg, s, lines);
    var twice := Register(once, s, lines);
    assert twice.Keys == once.Keys;
    forall k | k in twice
      ensures twice[k] == once[k]
    {
      if k in KeysOf(lines) {
        assert twice[k] == Members(once, k) + {s};
      }
    }
  }

  /** Only the set of extracted keys matters: two listings naming the same
      fields, however often and in whatever order, register identically. */
  lemma RegisterDependsOnKeysOnly(reg: Registry, s: Ref, a: seq<string>, b: seq<string>)
    requires WellFormedListing(a) && WellFormedListing(b)
    requires KeysOf(a) == KeysOf(b)
    ensures Register(reg, s, a) == Register(reg, s, b)
  {
    var ra := Register(reg, s, a);
    var rb := Register(reg, s, b);
    assert ra.Keys == rb.Keys;
    forall k | k in ra
      ensures ra[k] == rb[k]
    {
    }
  }

  // ---------------------------------------------------------------------
  // Construction: numbering and registration
  // ---------------------------------------------------------------------

  /** `counter.incrementAndGet()`: Java `int` arithmetic, wrapping from the
      largest `int` to the smallest. */
  function NextNumber(counter: int): (n: int)
    requires Int32.InRange(counter)
    ensures Int32.InRange(n)
    ensures counter < Int32.MAX ==> n == counter + 1
    ensures counter == Int32.MAX ==> n == Int32.MIN
  {
    Int32.Wrap(counter + 1)
  }

  /** The constructor of either set class: the `number` field initialiser
      draws the next number, then `init` registers the new, empty set under
      every field its comparator's listing reads with `getfield`. The fields
      the comparator's result depends on (`orderReads`) are a parameter:
      the comparator's code is not part of the model. Returns the new state
      and the new set's reference. */
  function NewSet(w: World, variant: Variant, listing: seq<string>, orderReads: set<Key>): (res: (World, Ref))
    requires Int32.InRange(w.counter)
    requires WellFormedListing(listing)
    ensures res.1 == |w.sets| && |res.0.sets| == |w.sets| + 1
    ensures res.0.sets[..|w.sets|] == w.sets
    ensures res.0.sets[res.1] == SetObj(variant, res.0.counter, KeysOf(listing), orderReads, map[])
    ensures w.counter < Int32.MAX ==> res.0.counter == w.counter + 1
    ensures res.0.fields == w.fields
    ensures forall k :: k in KeysOf(listing) ==> k in res.0.registry && res.1 in res.0.registry[k]
    ensures forall k :: k in KeysOf(listing) && k !in w.registry ==> res.0.registry[k] == {res.1}
    ensures forall k :: k in w.registry ==> k in res.0.registry && w.registry[k] <= res.0.registry[k]
    ensures forall k :: k !in KeysOf(listing) ==> Members(res.0.registry, k) == Members(w.registry, k)
  {
    var number := NextNumber(w.counter);
    var r := |w.sets|;
    var obj := SetObj(variant, number, KeysOf(listing), orderReads, map[]);
    (World(number, Register(w.registry, r, listing), w.sets + [obj], w.fields), r)
  }

  // ---------------------------------------------------------------------
  // Invariants of the state
  // ---------------------------------------------------------------------

  /** A set is registered under a key exactly when a `getfield` line of its
      `compare` names that field, and the registry only refers to existing
      sets. */
  ghost predicate RegistryMatchesReads(w: World) {
    RegistryAgrees(w.registry, ReadSets(w.sets))
  }

  /** The registry lists set `r` under key `k` exactly when `k` is among
      the scanned keys of set `r`. */
  ghost predicate RegistryAgrees(reg: Registry, readSets: seq<set<Key>>) {
    && (forall k: Key, r: Ref {:trigger r in Members(reg, k)} :: r in Members(reg, k) ==> 0 <= r < |readSets| && k in readSets[r])
    && (forall r: Ref, k: Key :: 0 <= r < |readSets| && k in readSets[r] ==> r in Members(reg, k))
  }

  /** The scanned keys of each set, in creation order. */
  function ReadSets(sets: seq<SetObj>): (rs: seq<set<Key>>)
    ensures |rs| == |sets|
    ensures forall r :: 0 <= r < |sets| ==> rs[r] == sets[r].registeredKeys
  {
    seq(|sets|, i requires 0 <= i < |sets| => sets[i].registeredKeys)
  }

  /** Set numbers are positive, strictly increasing in creation order and
      never above the counter. */
  ghost predicate NumbersIncreasing(w: World) {
    && (forall i, j :: 0 <= i < j < |w.sets| ==> w.sets[i].number < w.sets[j].number)
    && (forall i :: 0 <= i < |w.sets| ==> 0 < w.sets[i].number <= w.counter)
  }

  ghost predicate Valid(w: World) {
    && 0 <= w.counter <= Int32.MAX
    && RegistryMatchesReads(w)
    && NumbersIncreasing(w)
  }

  /** The sets registered under a key exist and their comparators read it. */
  lemma RegisteredSetsExist(w: World, k: Key)
    requires RegistryMatchesReads(w)
    ensures forall r :: r in Members(w.registry, k) ==> r < |w.sets| && k in w.sets[r].registeredKeys
  {
    var rs := ReadSets(w.sets);
    forall r | r in Members(w.registry, k)
      ensures r < |w.sets| && k in w.sets[r].registeredKeys
    {
      assert 0 <= r < |rs| && k in rs[r];
    }
  }

  /** Changing only elements and field values keeps the registry invariant,
      validity and coverage. */
  lemma ElementChangesPreserveValid(w: World, w': World)
    requires RegistryMatchesReads(w)
    requires w'.counter == w.counter && w'.registry == w.registry && |w'.sets| == |w.sets|
    requires forall r :: 0 <= r < |w.sets| ==>
      && w'.sets[r].registeredKeys == w.sets[r].registeredKeys
      && w'.sets[r].orderReads == w.sets[r].orderReads
      && w'.sets[r].number == w.sets[r].number
    ensures RegistryMatchesReads(w')
    ensures Valid(w) ==> Valid(w')
    ensures Covered(w) ==> Covered(w')
  {
    assert ReadSets(w'.sets) == ReadSets(w.sets);
  }

  /** Every position is current: each element sits where the current values
      of the fields its comparator's order depends on put it. */
  ghost predicate Consistent(w: World) {
    forall r, e :: 0 <= r < |w.sets| && e in w.sets[r].elems ==>
      w.sets[r].elems[e] == Snapshot(w.fields, e, w.sets[r].orderReads)
  }

  /** Every set's order depends only on fields it is registered under, so
      a setter of any other field cannot disturb it. */
  ghost predicate Covered(w: World) {
    forall r :: 0 <= r < |w.sets| ==> w.sets[r].orderReads <= w.sets[r].registeredKeys
  }

  lemma InitialValid()
    ensures Valid(Initial) && Consistent(Initial) && Covered(Initial)
  {
  }

  /** Adding a set at the next reference, registered under exactly `keys`
      and with every other entry unchanged, keeps the registry in agreement
      with the scanned keys. */
  lemma AgreesAfterRegister(reg: Registry, rs: seq<set<Key>>, reg': Registry, keys: set<Key>)
    requires RegistryAgrees(reg, rs)
    requires forall k :: Members(reg', k) == if k in keys then Members(reg, k) + {|rs|} else Members(reg, k)
    ensures RegistryAgrees(reg', rs + [keys])
  {
    var rs' := rs + [keys];
    forall k: Key, r: Ref | r in Members(reg', k)
      ensures 0 <= r < |rs'| && k in rs'[r]
    {
      if r != |rs| {
        assert r in Members(reg, k);
        assert rs'[r] == rs[r];
      }
    }
    forall r: Ref, k: Key | 0 <= r < |rs'| && k in rs'[r]
      ensures r in Members(reg', k)
    {
      if r < |rs| {
        assert rs'[r] == rs[r];
      }
    }
  }

  /** Construction keeps the registry invariant for any counter value. The
      invariant is about references; `NewSet` gives the note under
      "Left out" on what happens once a set number repeats. */
  lemma NewSetPreservesRegistry(w: World, variant: Variant, listing: seq<string>, orderReads: set<Key>)
    requires Int32.InRange(w.counter) && RegistryMatchesReads(w)
    requires WellFormedListing(listing)
    ensures RegistryMatchesReads(NewSet(w, variant, listing, orderReads).0)
  {
    var (w', r) := NewSet(w, variant, listing, orderReads);
    var keys := KeysOf(listing);
    forall k
      ensures Members(w'.registry, k) == if k in keys then Members(w.registry, k) + {r} else Members(w.registry, k)
    {
    }
    assert ReadSets(w'.sets) == ReadSets(w.sets) + [keys];
    AgreesAfterRegister(w.registry, ReadSets(w.sets), w'.registry, keys);
  }

  /** The new set's number is what `incrementAndGet` returns, including the
      wrap from the largest `int` to the smallest. */
  lemma NewSetNumber(w: World, variant: Variant, listing: seq<string>, orderReads: set<Key>)
    requires Int32.InRange(w.counter) && WellFormedListing(listing)
    ensures var (w', r) := NewSet(w, variant, listing, orderReads);
      w'.counter == NextNumber(w.counter) && w'.sets[r].number == w'.counter
  {
  }

  /** Constructing a set keeps the state valid as long as the counter has
      not reached the largest `int`; the new set's number exceeds every
      earlier one. */
  lemma NewSetPreservesValid(w: World, variant: Variant, listing: seq<string>, orderReads: set<Key>)
    requires Valid(w) && w.counter < Int32.MAX
    requires WellFormedListing(listing)
    ensures var (w', r) := NewSet(w, variant, listing, orderReads);
      && Valid(w')
      && (forall i :: 0 <= i < |w.sets| ==> w.sets[i].number < w'.sets[r].number)
  {
    var (w', r) := NewSet(w, variant, listing, orderReads);
    NewSetPreservesRegistry(w, variant, listing, orderReads);
    forall i, j | 0 <= i < j < |w'.sets|
      ensures w'.sets[i].number < w'.sets[j].number
    {
      assert w'.sets[i] == w.sets[i];
      if j < |w.sets| {
        assert w'.sets[j] == w.sets[j];
      }
    }
    forall i | 0 <= i < |w'.sets|
      ensures 0 < w'.sets[i].number <= w'.counter
    {
      if i < |w.sets| {
        assert w'.sets[i] == w.sets[i];
      }
    }
  }

  /** A new set is empty, so constructing one keeps every position current. */
  lemma NewSetPreservesConsistent(w: World, variant: Variant, listing: seq<string>, orderReads: set<Key>)
    requires Int32.InRange(w.counter)
    requires WellFormedListing(listing)
    requires Consistent(w)
    ensures Consistent(NewSet(w, variant, listing, orderReads).0)
  {
    var (w', r) := NewSet(w, variant, listing, orderReads);
    forall r', e | 0 <= r' < |w'.sets| && e in w'.sets[r'].elems
      ensures w'.sets[r'].elems[e] == Snapshot(w'.fields, e, w'.sets[r'].orderReads)
    {
      assert r' < |w.sets|;
      assert w'.sets[r'] == w.sets[r'];
    }
  }

  /** A new set keeps the state covered exactly when every field its
      comparator's result depends on was found by the scan. */
  lemma NewSetPreservesCovered(w: World, variant: Variant, listing: seq<string>, orderReads: set<Key>)
    requires Int32.InRange(w.counter)
    requires WellFormedListing(listing)
    requires Covered(w)
    ensures Covered(NewSet(w, variant, listing, orderReads).0) <==> orderReads <= KeysOf(listing)
  {
    var (w', r) := NewSet(w, variant, listing, orderReads);
    if orderReads <= KeysOf(listing) {
      forall r' | 0 <= r' < |w'.sets|
        ensures w'.sets[r'].orderReads <= w'.sets[r'].registeredKeys
      {
        if r' < |w.sets| {
          assert w'.sets[r'] == w.sets[r'];
        }
      }
    } else {
      assert w'.sets[r].orderReads == orderReads;
    }
  }

  // ---------------------------------------------------------------------
  // Comparators that read fields through getters
  // ---------------------------------------------------------------------

  /** A line without a lower-case `f` cannot contain `getfield`. */
  lemma NoFieldReadWithoutF(line: string)
    requires 'f' !in line
    ensures !ReadsField(line)
  {
    ContainsIff(line, GetfieldOpcode);
    forall i: int
      ensures !OccursAt(line, GetfieldOpcode, i)
    {
      if 0 <= i && i + |GetfieldOpcode| <= |line| {
        assert line[i..i + |GetfieldOpcode|][3] == line[i + 3] != GetfieldOpcode[3];
      }
    }
  }

  /** The line printed for a call of a getter, `invokevirtual #23 = Method
      Person.getAge(()I)`, is not a field read: a comparator that compares
      `o1.getAge()` with `o2.getAge()` has `Person.age` in its order but the
      scan registers nothing for it. */
  lemma GetterCallRegistersNothing()
    ensures var line := "invokevirtual #23 = Method " + "Person.getAge(()I)";
      && WellFormedListing([line])
      && KeysOf([line]) == {}
  {
    var line := "invokevirtual #23 = Method " + "Person.getAge(()I)";
    NoFieldReadWithoutF(line);
    assert [line][1..] == [];
  }

  /** The keys of a concatenated listing are those of its parts. */
  lemma WellFormedAppend(a: seq<string>, b: seq<string>)
    requires WellFormedListing(a) && WellFormedListing(b)
    ensures WellFormedListing(a + b)
  {
    forall i | 0 <= i < |a + b|
      ensures ParsableLine((a + b)[i])
    {
      if i >= |a| {
        assert (a + b)[i] == b[i - |a|];
      }
    }
  }

  lemma WellFormedTail(a: seq<string>)
    requires |a| > 0 && WellFormedListing(a)
    ensures WellFormedListing(a[1..])
  {
    forall i | 0 <= i < |a[1..]| ensures ParsableLine(a[1..][i]) {
      assert a[1..][i] == a[i + 1];
    }
  }

  /** The keys of a listing are those of its first line and of the rest. */
  lemma KeysOfCons(x: string, t: seq<string>)
    requires WellFormedListing([x] + t)
    ensures ParsableLine(x) && WellFormedListing(t)
    ensures KeysOf([x] + t) == LineKeys(x) + KeysOf(t)
  {
    var l := [x] + t;
    assert l[0] == x && l[1..] == t;
    WellFormedTail(l);
  }

  lemma {:induction false} KeysOfAppend(a: seq<string>, b: seq<string>)
    requires WellFormedListing(a) && WellFormedListing(b)
    ensures WellFormedListing(a + b)
    ensures KeysOf(a + b) == KeysOf(a) + KeysOf(b)
    decreases |a|
  {
    WellFormedAppend(a, b);
    if |a| == 0 {
      assert a + b == b;
    } else {
      var x, t := a[0], a[1..];
      assert a == [x] + t;
      assert a + b == [x] + (t + b);
      KeysOfCons(x, t);
      KeysOfAppend(t, b);
      KeysOfCons(x, t + b);
    }
  }

  /** Construction with `init` following the getters the comparator calls:
      the listings of those getters are scanned along with the comparator's
      own, so a field read through a getter is registered too. */
  function NewSetFollowingGetters(w: World, variant: Variant, listing: seq<string>, getterListings: seq<string>, orderReads: set<Key>): (res: (World, Ref))
    requires Int32.InRange(w.counter)
    requires WellFormedListing(listing) && WellFormedListing(getterListings)
    ensures res.1 == |w.sets| && |res.0.sets| == |w.sets| + 1
    ensures res.0.sets[res.1].registeredKeys == KeysOf(listing) + KeysOf(getterListings)
    ensures forall k :: k in KeysOf(getterListings) ==> res.1 in Members(res.0.registry, k)
  {
    KeysOfAppend(listing, getterListings);
    NewSet(w, variant, listing + getterListings, orderReads)
  }

  /** Following getters keeps the state covered whenever the comparator's
      order depends only on fields read by it or by the getters it calls. */
  lemma FollowingGettersKeepsCovered(w: World, variant: Variant, listing: seq<string>, getterListings: seq<string>, orderReads: set<Key>)
    requires Int32.InRange(w.counter)
    requires WellFormedListing(listing) && WellFormedListing(getterListings)
    requires Covered(w)
    requires orderReads <= KeysOf(listing) + KeysOf(getterListings)
    ensures Covered(NewSetFollowingGetters(w, variant, listing, getterListings, orderReads).0)
  {
    KeysOfAppend(listing, getterListings);
    NewSetPreservesCovered(w, variant, listing + getterListings, orderReads);
  }

  // ---------------------------------------------------------------------
  // Element operations inherited from TreeSet / ConcurrentSkipListSet
  // ---------------------------------------------------------------------

  /** `add(e)`: inserts `e` at the position its current field values give
      it; a set that already holds `e` is left as it is. */
  function Add(w: World, r: Ref, e: EntityId): (res: (World, bool))
    requires r < |w.sets|
    ensures res.1 <==> e !in w.sets[r].elems
    ensures res.0 == w.(sets := res.0.sets) && |res.0.sets| == |w.sets|
    ensures forall i :: 0 <= i < |w.sets| && i != r ==> res.0.sets[i] == w.sets[i]
    ensures res.0.sets[r] == w.sets[r].(elems := res.0.sets[r].elems)
    ensures res.0.sets[r].elems.Keys == w.sets[r].elems.Keys + {e}
    ensures res.0.sets[r].elems[e] == (if e in w.sets[r].elems then w.sets[r].elems[e] else Snapshot(w.fields, e, w.sets[r].orderReads))
    ensures forall x :: x in w.sets[r].elems ==> res.0.sets[r].elems[x] == w.sets[r].elems[x]
  {
    var s := w.sets[r];
    if e in s.elems then (w, false)
    else (w.(sets := w.sets[r := s.(elems := s.elems[e := Snapshot(w.fields, e, s.orderReads)])]), true)
  }

  /** `remove(e)`: takes `e` out of the set; reports whether it was there. */
  function Remove(w: World, r: Ref, e: EntityId): (res: (World, bool))
    requires r < |w.sets|
    ensures res.1 <==> e in w.sets[r].elems
    ensures res.0 == w.(sets := res.0.sets) && |res.0.sets| == |w.sets|
    ensures forall i :: 0 <= i < |w.sets| && i != r ==> res.0.sets[i] == w.sets[i]
    ensures res.0.sets[r] == w.sets[r].(elems := w.sets[r].elems - {e})
  {
    var s := w.sets[r];
    (w.(sets := w.sets[r := s.(elems := s.elems - {e})]), e in s.elems)
  }

  lemma AddPreservesConsistent(w: World, r: Ref, e: EntityId)
    requires r < |w.sets| && Consistent(w)
    ensures Consistent(Add(w, r, e).0)
  {
  }

  lemma RemovePreservesConsistent(w: World, r: Ref, e: EntityId)
    requires r < |w.sets| && Consistent(w)
    ensures Consistent(Remove(w, r, e).0)
  {
  }

  /** Writing a field behind the sets' back makes a position stale: a set
      whose order depends on the field keeps the element at the position its
      old value gave it. */
  lemma DirectWriteBreaksOrder(w: World, r: Ref, e: EntityId, k: Key, v: Value)
    requires Consistent(w)
    requires r < |w.sets| && e in w.sets[r].elems && k in w.sets[r].orderReads
    requires v != FieldValue(w.fields, e, k)
    ensures !Consistent(w.(fields := w.fields[(e, k) := v]))
  {
    var w' := w.(fields := w.fields[(e, k) := v]);
    assert Snapshot(w'.fields, e, w.sets[r].orderReads)[k] == v;
    assert w.sets[r].elems[e][k] != v;
  }

  // ---------------------------------------------------------------------
  // Identity: equals and hashCode
  // ---------------------------------------------------------------------

  /** The argument of `equals`: null, an object that is not an
      `UpsortableSet` (a plain set or anything else), or a set object. */
  datatype Obj = Null | OtherObject | SetRef(ref: Ref)

  predicate RefersInto(sets: seq<SetObj>, self: Ref, obj: Obj) {
    self < |sets| && (obj.SetRef? ==> obj.ref < |sets|)
  }

  /** `equals` as written in both classes: same reference; otherwise equal
      contents (`AbstractSet.equals` for the tree set,
      `ConcurrentSkipListSet.equals` for the skip-list set), same class,
      then the cast to `UpsortableTreeSet`, which fails for a skip-list
      set, then the numbers. */
  function EqualsAsWritten(sets: seq<SetObj>, self: Ref, obj: Obj): (r: Result<bool, JavaException>)
    requires RefersInto(sets, self, obj)
    ensures sets[self].variant == TreeSet ==> r.Success?
    ensures r.Failure? ==> r.error == ClassCastException
    ensures obj == SetRef(self) ==> r == Success(true)
    ensures !obj.SetRef? ==> r == Success(false)
    ensures r.Failure? <==>
      && obj.SetRef? && obj.ref != self
      && sets[self].variant == ConcurrentSkipListSet
      && sets[obj.ref].variant == ConcurrentSkipListSet
      && sets[self].elems.Keys == sets[obj.ref].elems.Keys
  {
    if obj == SetRef(self) then Success(true)
    else if !obj.SetRef? then Success(false)
    else
      var a := sets[self];
      var b := sets[obj.ref];
      if a.elems.Keys != b.elems.Keys then Success(false)
      else if a.variant != b.variant then Success(false)
      else if a.variant == ConcurrentSkipListSet then Failure(ClassCastException)
      else Success(a.number == b.number)
  }

  /** `equals` with the cast to the object's own class: same reference, or
      equal contents, same class and same number. */
  function Equals(sets: seq<SetObj>, self: Ref, obj: Obj): (r: bool)
    requires RefersInto(sets, self, obj)
    ensures obj == SetRef(self) ==> r
    ensures !obj.SetRef? ==> !r
    ensures obj.SetRef? && sets[self].number != sets[obj.ref].number ==> !r
    ensures r && obj != SetRef(self) ==>
      && sets[self].elems.Keys == sets[obj.ref].elems.Keys
      && sets[self].variant == sets[obj.ref].variant
  {
    if obj == SetRef(self) then true
    else if !obj.SetRef? then false
    else
      var a := sets[self];
      var b := sets[obj.ref];
      if a.elems.Keys != b.elems.Keys then false
      else if a.variant != b.variant then false
      else a.number == b.number
  }

  /** The two definitions agree wherever the written one returns. */
  lemma EqualsAgreesWhenNoThrow(sets: seq<SetObj>, self: Ref, obj: Obj)
    requires RefersInto(sets, self, obj)
    requires EqualsAsWritten(sets, self, obj).Success?
    ensures EqualsAsWritten(sets, self, obj).value == Equals(sets, self, obj)
  {
  }

  /** Any two distinct skip-list sets with the same contents make the
      written `equals` throw. */
  lemma SkipListEqualsThrows(sets: seq<SetObj>, a: Ref, b: Ref)
    requires a < |sets| && b < |sets| && a != b
    requires sets[a].variant == ConcurrentSkipListSet && sets[b].variant == ConcurrentSkipListSet
    requires sets[a].elems.Keys == sets[b].elems.Keys
    ensures EqualsAsWritten(sets, a, SetRef(b)) == Failure(ClassCastException)
  {
  }

  /** Two skip-list sets built one after the other, before anything is
      added to them, already trigger the failing cast. */
  lemma TwoFreshSkipListSetsThrow(listing: seq<string>, orderReads: set<Key>)
    requires WellFormedListing(listing)
    ensures var (w1, a) := NewSet(Initial, ConcurrentSkipListSet, listing, orderReads);
      var (w2, b) := NewSet(w1, ConcurrentSkipListSet, listing, orderReads);
      EqualsAsWritten(w2.sets, a, SetRef(b)) == Failure(ClassCastException)
  {
    var (w1, a) := NewSet(Initial, ConcurrentSkipListSet, listing, orderReads);
    var (w2, b) := NewSet(w1, ConcurrentSkipListSet, listing, orderReads);
    assert w2.sets[a] == w1.sets[a];
    SkipListEqualsThrows(w2.sets, a, b);
  }

  /** The reference check `this == obj` comes first, so every set equals
      itself, whichever class it is. */
  lemma EqualsReflexive(sets: seq<SetObj>, a: Ref)
    requires a < |sets|
    ensures EqualsAsWritten(sets, a, SetRef(a)) == Success(true)
    ensures Equals(sets, a, SetRef(a))
  {
  }

  lemma EqualsSymmetric(sets: seq<SetObj>, a: Ref, b: Ref)
    requires a < |sets| && b < |sets|
    ensures Equals(sets, a, SetRef(b)) == Equals(sets, b, SetRef(a))
  {
  }

  /** With distinct numbers, `equals` is reference identity, so the
      registry's hash sets hold each set object at most once and never
      merge two different ones. */
  lemma EqualsIsIdentity(w: World, a: Ref, b: Ref)
    requires Valid(w)
    requires a < |w.sets| && b < |w.sets|
    ensures Equals(w.sets, a, SetRef(b)) <==> a == b
  {
    if a < b {
      assert w.sets[a].number < w.sets[b].number;
    } else if b < a {
      assert w.sets[b].number < w.sets[a].number;
    }
  }

  /** `hashCode`: 31 times the contents' hash (`AbstractSet.hashCode`, a
      function of the elements) plus the number, in wrapping `int`
      arithmetic. */
  function HashCode(s: SetObj, contentHash: set<EntityId> -> int): (h: int)
    ensures Int32.InRange(h)
    ensures (h - (31 * contentHash(s.elems.Keys) + s.number)) % Int32.MODULUS == 0
  {
    Int32.Wrap(31 * contentHash(s.elems.Keys) + s.number)
  }

  /** Equal sets have equal hash codes, as `Object.hashCode` requires. */
  lemma EqualsImpliesSameHash(sets: seq<SetObj>, a: Ref, b: Ref, contentHash: set<EntityId> -> int)
    requires a < |sets| && b < |sets|
    requires Equals(sets, a, SetRef(b))
    ensures HashCode(sets[a], contentHash) == HashCode(sets[b], contentHash)
  {
  }
}

=== FILE: wrappers.dfy ===
/** `Option` and `Result`, used across the model: `Option` for Java's
    nullable results and `Result` for calls that may throw. */
module Wrappers {

  datatype Option<+T> = None | Some(value: T)

  datatype Result<+R, +E> = Success(value: R) | Failure(error: E)

  /** The Java runtime exceptions the modelled code can raise. */
  datatype JavaException = ClassCastException | NullPointerException
}
